=== FILE: README.md ===
# Booking backend: a verified model of the booking table and its handlers

The system is a small restaurant-booking backend. One SQLite table, `bookings`,
holds reservations: an auto-assigned id, the party's name, a date, a time and a
party size. Four HTTP handlers change or read it:

- create (`POST /api/booking`) refuses a (date, time) slot that some booking
  already holds and otherwise inserts the booking;
- list (`GET /api/booking`) returns every booking;
- update (`PUT /api/booking/<id>`) rewrites the time and party size of one booking;
- cancel (`DELETE /api/booking/<id>`) removes one booking.

The model has two modules.

- `BookingStore` (`booking_store.dfy`) gives each SQL statement its meaning over
  the sequence of rows in storage order. The `SELECT … WHERE` plus `fetchone()`
  pairs become `FindBySlot` and `FindById`. `UPDATE … WHERE id = ?` becomes
  `SetTimePeople` and `DELETE … WHERE id = ?` becomes `DeleteById`. It also holds
  the table invariants: `SlotsUnique` (no two rows share a slot) and
  `IdsAscending` (ids grow along storage order). The lemmas say when each
  statement keeps those invariants.
- `BookingService` (`booking_service.dfy`) is the class `BookingTable`. Its fields
  are the rows, the AUTOINCREMENT counter `lastId`, and a ghost set `issued` of
  every id ever handed out. Each handler is a method that returns an `Outcome`
  (`Ok` = 200, `Conflict` = 400, `NotFound` = 404). Its `ensures` give the outcome
  and the whole new table in terms of the old one.

Two behaviours of the code are modelled as written, not corrected:

1. **Update conflicts with itself.** The update handler's slot lookup does not
   leave out the booking being updated. Resubmitting a booking's own unchanged
   slot therefore answers 400 (`ResubmitOwnSlot`, `ResubmitStoredSlot`).
2. **Update can break slot uniqueness.** The conflict check uses the request's
   date, but the handler writes only `time` and `people`, so the stored date is
   kept. `UpdateBooking` keeps `SlotsUnique` only when the request date equals
   the stored date. `SetTimePeopleCanBreakSlotsUnique` and `UpdateOntoTakenSlot`
   show the gap: bookings (D, T1) and (D, T2), then an update of the first with
   (D', T2).

Two further choices follow the code:

- The code never checks `name` beyond the column's `NOT NULL`, so an empty name
  is stored like any other and the model takes any string.
- Slot uniqueness is not an invariant of the table. Create keeps it, but an
  update whose request date differs from the stored date can break it. So it
  is proved as a conditional property of each handler, not made part of
  `Valid()`.

## Model

| member | source | states |
|---|---|---|
| `BookingStore.FindBySlot` | app.py:69-70 | the slot lookup finds a row exactly when some row holds (date, time); the row it returns holds that slot and no earlier row does |
| `BookingStore.FindById` | app.py:103-104 | the id lookup finds a row exactly when some row has the id, and the row it returns is a stored row with that id |
| `BookingStore.SetTimePeople` | app.py:117-121 | the UPDATE keeps the length and every id; rows with the id get the new time and party size with the same id, name and date; every other row is unchanged |
| `BookingStore.DeleteById` | app.py:139 | after the DELETE no row has the id, and the table has not grown |
| `BookingStore.DeleteByIdKeepsOtherRows` | app.py:139 | a booking is in the table after the DELETE exactly when it was in it before and has a different id |
| `BookingStore.DeleteByIdRemovesOneRow` | app.py:132-139 | with ascending ids, the DELETE of a stored booking's id removes exactly that one row and keeps the rest in order |
| `BookingStore.DeleteByIdAbsent` | app.py:139 | a DELETE whose id no row has leaves the table unchanged |
| `BookingStore.RemovingOneRowPreserves` | app.py:139 | removing one row keeps slot uniqueness and ascending ids |
| `BookingStore.AppendPreservesSlotsUnique` | app.py:69-80 | inserting a booking whose slot the lookup found free keeps every slot unique |
| `BookingStore.SetTimePeoplePreservesSlotsUnique` | app.py:110-121 | the UPDATE keeps every slot unique when the request slot is free, ids are distinct and the rewritten row's stored date is the request's date |
| `BookingStore.SetTimePeopleCanBreakSlotsUnique` | app.py:110-121 | counterexample: on the table (D, T1), (D, T2) the request slot (D', T2) is free, yet rewriting the first row's time to T2 leaves two rows on (D, T2) |
| `BookingService.BookingTable.CreateTable` | app.py:41-55 | the freshly created table is empty, has used no id and satisfies the table invariant |
| `BookingService.BookingTable.CreateBooking` | app.py:61-83 | answers 400 exactly when some booking holds (date, time), and then nothing changes; otherwise appends one booking with the given fields under id lastId + 1, an id never issued before and greater than every issued id; keeps the invariant and slot uniqueness |
| `BookingService.BookingTable.GetBookings` | app.py:86-94 | returns every stored booking, in storage order, and changes nothing |
| `BookingService.BookingTable.UpdateBooking` | app.py:97-125 | 404 exactly when no booking has the id; 400 exactly when the id exists and any booking, the target included, holds the request's (date, time); on either error nothing changes; on success the table is the UPDATE of time and party size only, the counter is unchanged, and slot uniqueness is kept when the target's stored date equals the request date |
| `BookingService.BookingTable.CancelBooking` | app.py:128-143 | 404 exactly when no booking has the id, and then nothing changes; otherwise exactly the row with that id is removed, the other rows keep their order, and slot uniqueness and the invariant are kept |
| `BookingService.BookingLifecycle` | app.py:61-143 | Alice books 2024-06-01 19:00 and gets id 1; Bob is refused that slot; the list shows only Alice; her move to 20:00 succeeds; her cancel succeeds; the list is then empty |
| `BookingService.ResubmitOwnSlot` | app.py:110-114 | a booking just created in an empty table is refused with a conflict when an update resubmits its own date and time |
| `BookingService.ResubmitStoredSlot` | app.py:110-114 | for every valid table and every stored booking, an update that resubmits the booking's own date and time is refused with a conflict and leaves the rows unchanged |
| `BookingService.UpdateOntoTakenSlot` | app.py:110-121 | with two bookings on one date at different times, moving the first to the second's time under another request date succeeds and leaves two bookings on one slot |

## Left out

- Flask routing, `render_template` and the `/`, `/api/test` and `/test` routes are not modelled. Neither is the loop that prints the registered routes, nor the "Creating the table..." line that `create_table` prints. They are framework and UI plumbing and console output.
- The CORS configuration and the `PORT` environment variable given to `app.run` are not modelled. They are deployment settings.
- SQLite connections, `commit`, `close` and the database path are not modelled. The in-memory `BookingTable` stands in for the database file. The connections left open on the early error returns do not change the table, so they are not modelled either.
- `BookingService.BookingTable.CreateTable` models only the first start on a new database file. `CREATE TABLE IF NOT EXISTS` on an existing file keeps its rows. In the model that is the same `BookingTable` object kept between requests.
- JSON decoding of the request body is not modelled. The handlers take typed arguments: `name`, `date` and `time` are strings, `people` is an integer, and `id` is a `nat` (Flask's `int` converter accepts only strings of digits). Other request values are not modelled. What they do depends on how far the handler gets, because each key is read and bound only at the statement that uses it:
  - Both handlers first decode the body with `request.get_json()` (app.py:63, app.py:99), before any lookup. A body sent as JSON that does not parse is refused there with 400, so neither the 404 nor the 400 check below is reached. A body not sent as JSON is refused there with 415 from Flask 2.1 on; older Flask returns `None` instead, and the first key read then raises `TypeError` and answers 500 (in update only after the 404 check).
  - Order in create: decode the body (app.py:63); read and bind `date` and `time` (app.py:69); the 400 check (app.py:72-73); read and bind `name`, `date`, `time` and `people` for the insert (app.py:76-79).
  - Order in update: decode the body (app.py:99); bind `id` (app.py:103); the 404 check (app.py:106-107); read and bind `date` and `time` (app.py:110); the 400 check (app.py:113-114); read and bind `time` and `people` for the UPDATE (app.py:117-121).
  - A missing key raises `KeyError`, and a list or object value fails at binding. Either answers 500, but only once the handler reaches that read or binding. Before it, the handler answers as the model does. An update of an unknown id answers 404 whatever the decoded JSON holds. A create on a taken slot answers 400 whatever `name` and `people` hold. An update whose request slot is taken answers 400 whatever `people` holds.
  - A JSON `null` binds SQL `NULL`, and `date = NULL` or `time = NULL` matches no row, so a `null` request date or time skips the conflict check. On update, a `null` date alone answers 200: only `time` and `people` are written. A `null` time on update answers 500, because the UPDATE writes `NULL` into the `NOT NULL` column. On create, a `null` date or time skips the check, and then the insert fails on `NOT NULL` with 500. A `null` `name` or `people` on create, or `people` on update, answers 500 once the handler reaches the insert or the UPDATE.
  - An integer outside SQLite's signed 64-bit range in any field makes the driver raise `OverflowError` when it binds the value, which answers 500. For `date` or `time` that happens at the slot lookup (app.py:69, app.py:110), before the 400 check; for `name` at the insert (app.py:79); for `people` at the insert or the UPDATE (app.py:79, app.py:121).
  - Other scalar types answer 200 where the model would, but the stored value may differ. Numbers within SQLite's signed 64-bit range, and floats, given for `name`, `date` or `time` are stored and compared as text, because those columns are TEXT. A string given for `people` that is not a number is stored as TEXT, and the model's `int` has no such value. A float given for `people` is stored as REAL unless it is integral.
- The check-then-act race between concurrent requests is not modelled. The model is sequential: one handler runs to completion before the next starts.
- The Italian message strings of the responses are not modelled. Only the outcome and its status code are.
- `BookingService.BookingTable.CreateBooking` does not model request integers outside SQLite's signed 64-bit range. A `people` value outside that range makes the driver raise `OverflowError` when the insert binds it, so the running system answers 500 where the model answers `Ok` (the slot lookup does not bind `people`, so a conflict still answers 400).
- `BookingService.BookingTable.UpdateBooking` does not model request integers outside SQLite's signed 64-bit range. The driver raises `OverflowError` when it binds such a value. An `id` outside the range fails at the first lookup, so the running system answers 500 where the model answers `NotFound`. A `people` value outside it fails only at the UPDATE, so the running system answers 500 where the model answers `Ok`.
- `BookingService.BookingTable.CancelBooking` does not model an `id` outside SQLite's signed 64-bit range. The driver raises `OverflowError` when it binds the parameter, so the running system answers 500 where the model answers `NotFound`.
- `BookingService.BookingTable.CreateBooking` does not model the end of SQLite's 64-bit id range. Ids are unbounded, so the insert that fails once the largest id reaches 9223372036854775807 is not modelled.
- `BookingService.BookingTable.GetBookings` assumes `SELECT * FROM bookings` returns the rows in rowid order, which is insertion order. SQL without `ORDER BY` does not promise any order, and here the caller sees it.
- `BookingStore.FindBySlot` picks the first matching row in storage order. SQL without `ORDER BY` does not promise that order, but the handlers only test whether some row was found, so nothing depends on it.
- Failures of the storage layer itself (a locked or unreadable file) are not modelled. They come from outside the code and are not handled by it.

=== FILE: booking_service.dfy ===
/** The request handlers of the booking backend, as methods on the one
    in-memory `bookings` table they share. */
module BookingService {

  import opened BookingStore

  /** What a handler answers: success (200), the slot is taken (400), or the
      booking id does not exist (404). */
  datatype Outcome = Ok | Conflict | NotFound

  /** The `bookings` table together with its AUTOINCREMENT counter. */
  class BookingTable {
    /** The rows, in storage order. */
    var rows: seq<Booking>
    /** The largest id ever assigned (SQLite keeps it in `sqlite_sequence`);
        the next insertion gets `lastId + 1`. */
    var lastId: nat
    /** Every id ever assigned, including those of cancelled bookings. */
    ghost var issued: set<nat>

    /** Ids are positive, assigned, at most `lastId` and ascending in storage
        order.  Slot uniqueness is deliberately not part of it: an update
        can break it (see UpdateBooking). */
    ghost predicate Valid()
      reads this
    {
      && IdsAscending(rows)
      && (forall b :: b in rows ==> b.id in issued)
      && (forall x :: x in issued ==> 1 <= x <= lastId)
    }

    /** `create_table`: the table starts empty and no id has been used. */
    constructor CreateTable()
      ensures Valid()
      ensures rows == [] && lastId == 0 && issued == {}
    {
      rows := [];
      lastId := 0;
      issued := {};
    }

    /** `POST /api/booking`: refuse a slot some booking already holds,
        otherwise insert the booking under a fresh id. */
    method CreateBooking(name: string, date: string, time: string, people: int) returns (outcome: Outcome)
      requires Valid()
      modifies this
      ensures Valid()
      ensures outcome != NotFound
      ensures outcome == Conflict <==> HasSlot(old(rows), date, time)
      ensures outcome == Conflict ==> rows == old(rows) && lastId == old(lastId) && issued == old(issued)
      ensures outcome == Ok ==>
                && lastId == old(lastId) + 1
                && lastId !in old(issued)
                && (forall x :: x in old(issued) ==> x < lastId)
                && issued == old(issued) + {lastId}
                && rows == old(rows) + [Booking(lastId, name, date, time, people)]
      ensures SlotsUnique(old(rows)) ==> SlotsUnique(rows)
    {
      var existing := FindBySlot(rows, date, time);
      if existing.Some? {
        return Conflict;
      }
      var booking := Booking(lastId + 1, name, date, time, people);
      if SlotsUnique(rows) {
        AppendPreservesSlotsUnique(rows, booking);
      }
      rows := rows + [booking];
      lastId := lastId + 1;
      issued := issued + {lastId};
      return Ok;
    }

    /** `GET /api/booking`: every booking, in storage order. */
    method GetBookings() returns (list: seq<Booking>)
      ensures list == rows
    {
      list := rows;
    }

    /** `PUT /api/booking/<id>`: 404 for an unknown id; 400 when any booking,
        the one being updated included, holds the request's (date, time);
        otherwise only the time and party size of that booking are rewritten.
        The request's date takes part in the check and is never stored. */
    method UpdateBooking(id: nat, date: string, time: string, people: int) returns (outcome: Outcome)
      requires Valid()
      modifies this
      ensures Valid()
      ensures lastId == old(lastId) && issued == old(issued)
      ensures outcome == NotFound <==> !HasId(old(rows), id)
      ensures outcome == Conflict <==> HasId(old(rows), id) && HasSlot(old(rows), date, time)
      ensures outcome != Ok ==> rows == old(rows)
      ensures outcome == Ok ==> rows == SetTimePeople(old(rows), id, time, people)
      ensures outcome == Ok && SlotsUnique(old(rows))
              && (forall k :: 0 <= k < |old(rows)| && old(rows)[k].id == id ==> old(rows)[k].date == date)
              ==> SlotsUnique(rows)
    {
      var booking := FindById(rows, id);
      if booking.None? {
        return NotFound;
      }
      var existing := FindBySlot(rows, date, time);
      if existing.Some? {
        return Conflict;
      }
      if SlotsUnique(rows) && forall k :: 0 <= k < |rows| && rows[k].id == id ==> rows[k].date == date {
        SetTimePeoplePreservesSlotsUnique(rows, id, date, time, people);
      }
      rows := SetTimePeople(rows, id, time, people);
      return Ok;
    }

    /** `DELETE /api/booking/<id>`: 404 for an unknown id, otherwise the
        booking's row is removed and every other row stays in place. */
    method CancelBooking(id: nat) returns (outcome: Outcome)
      requires Valid()
      modifies this
      ensures Valid()
      ensures lastId == old(lastId) && issued == old(issued)
      ensures outcome != Conflict
      ensures outcome == NotFound <==> !HasId(old(rows), id)
      ensures outcome == NotFound ==> rows == old(rows)
      ensures outcome == Ok ==>
                exists i :: 0 <= i < |old(rows)| && old(rows)[i].id == id && rows == old(rows)[..i] + old(rows)[i + 1..]
      ensures !HasId(rows, id)
      ensures SlotsUnique(old(rows)) ==> SlotsUnique(rows)
    {
      var booking := FindById(rows, id);
      if booking.None? {
        return NotFound;
      }
      ghost var i :| 0 <= i < |rows| && rows[i].id == id;
      DeleteByIdRemovesOneRow(rows, i);
      RemovingOneRowPreserves(rows, i);
      rows := DeleteById(rows, id);
      return Ok;
    }
  }

  /** One booking's life cycle: Alice books 2024-06-01 19:00 and gets
      id 1, Bob is refused the same slot, the list shows Alice alone, Alice
      moves to 20:00, cancels, and the list is empty. */
  method BookingLifecycle() returns (outcomes: seq<Outcome>, firstList: seq<Booking>, lastList: seq<Booking>)
    ensures outcomes == [Ok, Conflict, Ok, Ok]
    ensures firstList == [Booking(1, "Alice", "2024-06-01", "19:00", 2)]
    ensures lastList == []
  {
    var table := new BookingTable.CreateTable();
    var alice := table.CreateBooking("Alice", "2024-06-01", "19:00", 2);
    var bob := table.CreateBooking("Bob", "2024-06-01", "19:00", 4);
    firstList := table.GetBookings();
    assert table.rows[0].id == 1;
    var moved := table.UpdateBooking(1, "2024-06-01", "20:00", 2);
    var cancelled := table.CancelBooking(1);
    lastList := table.GetBookings();
    outcomes := [alice, bob, moved, cancelled];
  }

  /** Resubmitting the own unchanged slot of a booking just created in an
      empty table is refused with 400: the conflict lookup does not leave out
      the booking being updated. */
  method ResubmitOwnSlot(name: string, date: string, time: string, people: int) returns (created: Outcome, updated: Outcome)
    ensures created == Ok
    ensures updated == Conflict
  {
    var table := new BookingTable.CreateTable();
    created := table.CreateBooking(name, date, time, people);
    assert table.rows[0].id == 1;
    updated := table.UpdateBooking(1, date, time, people);
  }

  /** The same for any table: an update that resubmits a stored booking's
      own date and time is refused with 400 and changes nothing. */
  method ResubmitStoredSlot(table: BookingTable, b: Booking, people: int) returns (updated: Outcome)
    requires table.Valid()
    requires b in table.rows
    modifies table
    ensures updated == Conflict
    ensures table.rows == old(table.rows)
  {
    updated := table.UpdateBooking(b.id, b.date, b.time, people);
  }

  /** Two bookings on one date at different times; updating the first with
      the second's time on another date passes the conflict check, yet only
      the time is written, so both bookings end up on one slot. */
  method UpdateOntoTakenSlot(date: string, otherDate: string, time1: string, time2: string)
    returns (updated: Outcome, list: seq<Booking>)
    requires date != otherDate && time1 != time2
    ensures updated == Ok
    ensures !SlotsUnique(list)
  {
    var table := new BookingTable.CreateTable();
    var first := table.CreateBooking("A", date, time1, 2);
    var second := table.CreateBooking("B", date, time2, 2);
    assert table.rows[0].id == 1;
    updated := table.UpdateBooking(1, otherDate, time2, 2);
    list := table.GetBookings();
    assert list[0].date == list[1].date && list[0].time == list[1].time;
  }
}

=== FILE: booking_store.dfy ===
/** The `bookings` table and the meaning of the SQL statements the request
    handlers run against it.  A table is the sequence of its rows in storage
    order (rowid order, which is also insertion order). */
module BookingStore {

  datatype Option<+T> = None | Some(value: T)

  /** One row of the `bookings` table: `id INTEGER PRIMARY KEY AUTOINCREMENT`,
      `name`, `date` and `time` as text, `people` as an integer.  Date and time
      are opaque comparison keys; nothing parses or validates them. */
  datatype Booking = Booking(id: nat, name: string, date: string, time: string, people: int)

  /** Some row holds the slot (date, time). */
  predicate HasSlot(rows: seq<Booking>, date: string, time: string)
  {
    exists i :: 0 <= i < |rows| && rows[i].date == date && rows[i].time == time
  }

  /** Some row has this id. */
  predicate HasId(rows: seq<Booking>, id: nat)
  {
    exists i :: 0 <= i < |rows| && rows[i].id == id
  }

  /** The table invariant the handlers aim for: no two rows share a slot. */
  predicate SlotsUnique(rows: seq<Booking>)
  {
    forall i, j :: 0 <= i < j < |rows| ==> rows[i].date != rows[j].date || rows[i].time != rows[j].time
  }

  /** Ids grow strictly along storage order (so in particular they are distinct). */
  predicate IdsAscending(rows: seq<Booking>)
  {
    forall i, j :: 0 <= i < j < |rows| ==> rows[i].id < rows[j].id
  }

  /** `SELECT * FROM bookings WHERE date = ? AND time = ?` followed by
      `fetchone()`: the first row holding the slot, or nothing. */
  function FindBySlot(rows: seq<Booking>, date: string, time: string): (r: Option<Booking>)
    ensures r.None? <==> !HasSlot(rows, date, time)
    ensures r.Some? ==> exists i :: 0 <= i < |rows| && rows[i] == r.value && !HasSlot(rows[..i], date, time)
    ensures r.Some? ==> r.value.date == date && r.value.time == time
  {
    if rows == [] then None
    else if rows[0].date == date && rows[0].time == time then
      assert !HasSlot(rows[..0], date, time);
      Some(rows[0])
    else
      var r := FindBySlot(rows[1..], date, time);
      HasSlotPastHead(rows, date, time);
      if r.Some? then
        var i :| 0 <= i < |rows[1..]| && rows[1..][i] == r.value && !HasSlot(rows[1..][..i], date, time);
        HasSlotPastHead(rows[..i + 1], date, time);
        assert rows[..i + 1][1..] == rows[1..][..i];
        r
      else
        r
  }

  /** A slot is held past a free head row exactly when the rest holds it. */
  lemma HasSlotPastHead(rows: seq<Booking>, date: string, time: string)
    requires rows != []
    requires rows[0].date != date || rows[0].time != time
    ensures HasSlot(rows, date, time) <==> HasSlot(rows[1..], date, time)
  {
  }

  /** `SELECT * FROM bookings WHERE id = ?` followed by `fetchone()`. */
  function FindById(rows: seq<Booking>, id: nat): (r: Option<Booking>)
    ensures r.None? <==> !HasId(rows, id)
    ensures r.Some? ==> r.value in rows && r.value.id == id
  {
    if rows == [] then None
    else if rows[0].id == id then Some(rows[0])
    else
      var r := FindById(rows[1..], id);
      assert HasId(rows[1..], id) ==> HasId(rows, id);
      assert HasId(rows, id) ==> HasId(rows[1..], id) by {
        if HasId(rows, id) {
          var i :| 0 <= i < |rows| && rows[i].id == id;
          assert rows[1..][i - 1] == rows[i];
        }
      }
      r
  }

  /** `UPDATE bookings SET time = ?, people = ? WHERE id = ?`: every row with
      the id gets the new time and party size; ids, names, dates and all
      other rows stay as they were. */
  function SetTimePeople(rows: seq<Booking>, id: nat, time: string, people: int): (r: seq<Booking>)
    ensures |r| == |rows|
    ensures forall i :: 0 <= i < |rows| ==> r[i].id == rows[i].id
    ensures forall i :: 0 <= i < |rows| && rows[i].id != id ==> r[i] == rows[i]
    ensures forall i :: 0 <= i < |rows| && rows[i].id == id ==>
              r[i] == Booking(rows[i].id, rows[i].name, rows[i].date, time, people)
  {
    if rows == [] then []
    else
      var head := if rows[0].id == id then rows[0].(time := time, people := people) else rows[0];
      [head] + SetTimePeople(rows[1..], id, time, people)
  }

  /** `DELETE FROM bookings WHERE id = ?`: the rows without that id, in their
      storage order. */
  function DeleteById(rows: seq<Booking>, id: nat): (r: seq<Booking>)
    ensures |r| <= |rows|
    ensures !HasId(r, id)
  {
    if rows == [] then []
    else if rows[0].id == id then DeleteById(rows[1..], id)
    else [rows[0]] + DeleteById(rows[1..], id)
  }

  /** With ascending ids, the DELETE removes exactly the one row at the index
      holding the id, and keeps the rest in order. */
  lemma {:induction false} DeleteByIdRemovesOneRow(rows: seq<Booking>, i: nat)
    requires IdsAscending(rows)
    requires i < |rows|
    ensures DeleteById(rows, rows[i].id) == rows[..i] + rows[i + 1..]
  {
    var id := rows[i].id;
    var tail := rows[1..];
    assert IdsAscending(tail);
    if i == 0 {
      forall k | 0 <= k < |tail|
        ensures tail[k].id != id
      {
        assert tail[k] == rows[k + 1];
      }
      DeleteByIdAbsent(tail, id);
      assert DeleteById(rows, id) == DeleteById(tail, id);
    } else {
      assert rows[0].id < id;
      assert tail[i - 1] == rows[i];
      DeleteByIdRemovesOneRow(tail, i - 1);
      assert DeleteById(rows, id) == [rows[0]] + DeleteById(tail, id);
      assert rows[..i] == [rows[0]] + tail[..i - 1];
      assert rows[i + 1..] == tail[i..];
    }
  }

  /** The DELETE keeps every row without the id and adds none. */
  lemma {:induction false} DeleteByIdKeepsOtherRows(rows: seq<Booking>, id: nat)
    ensures forall b :: b in DeleteById(rows, id) <==> b in rows && b.id != id
  {
    if rows != [] {
      DeleteByIdKeepsOtherRows(rows[1..], id);
      assert rows == [rows[0]] + rows[1..];
    }
  }

  /** A DELETE whose id no row has leaves the table as it was. */
  lemma {:induction false} DeleteByIdAbsent(rows: seq<Booking>, id: nat)
    requires !HasId(rows, id)
    ensures DeleteById(rows, id) == rows
  {
    if rows != [] {
      assert rows[0].id != id;
      forall k | 0 <= k < |rows[1..]|
        ensures rows[1..][k].id != id
      {
        assert rows[1..][k] == rows[k + 1];
      }
      DeleteByIdAbsent(rows[1..], id);
      assert rows == [rows[0]] + rows[1..];
    }
  }

  /** Removing one row keeps both the slot invariant and the id order. */
  lemma RemovingOneRowPreserves(rows: seq<Booking>, i: nat)
    requires i < |rows|
    ensures SlotsUnique(rows) ==> SlotsUnique(rows[..i] + rows[i + 1..])
    ensures IdsAscending(rows) ==> IdsAscending(rows[..i] + rows[i + 1..])
  {
  }

  /** Appending a row whose slot is free keeps every slot unique. */
  lemma AppendPreservesSlotsUnique(rows: seq<Booking>, b: Booking)
    requires SlotsUnique(rows)
    requires !HasSlot(rows, b.date, b.time)
    ensures SlotsUnique(rows + [b])
  {
  }

  /** The UPDATE keeps every slot unique when ids are distinct, the new slot
      is free and every row being rewritten already lies on the request's
      date. */
  lemma SetTimePeoplePreservesSlotsUnique(rows: seq<Booking>, id: nat, date: string, time: string, people: int)
    requires SlotsUnique(rows)
    requires forall i, j :: 0 <= i < j < |rows| ==> rows[i].id != rows[j].id
    requires !HasSlot(rows, date, time)
    requires forall k :: 0 <= k < |rows| && rows[k].id == id ==> rows[k].date == date
    ensures SlotsUnique(SetTimePeople(rows, id, time, people))
  {
  }

  /** Without the same-date condition the UPDATE can put two rows on one
      slot: rows (D, T1) and (D, T2), then the first is updated with the
      request slot (D', T2).  (D', T2) is free, so the check passes, but only
      the time is written and the first row moves to (D, T2). */
  lemma SetTimePeopleCanBreakSlotsUnique()
    ensures var rows := [Booking(1, "A", "D", "T1", 2), Booking(2, "B", "D", "T2", 2)];
            && SlotsUnique(rows)
            && IdsAscending(rows)
            && !HasSlot(rows, "D'", "T2")
            && !SlotsUnique(SetTimePeople(rows, 1, "T2", 2))
  {
  }
}
